=== FILE: README.md ===
# calendar-trigger: occurrence resolution and transition detection, in Dafny

This project models the core of calendar-trigger's scheduler function. The
function reads a calendar feed and works out which events start or stop
"now". The model covers its two pure pieces:

- **Occurrence resolution** (`get_events_from_ics`). Each VEVENT record is
  normalised first:
  - all-day dates are promoted to UTC midnight;
  - a missing DTEND becomes start plus one minute (for a bare date, the same date);
  - an absent text field becomes the text `"None"`.

  A recurring event with a bounded rule whose UNTIL date lies ahead is
  expanded inside the window, with the EXDATE entries that expose an instant
  excluded (see the finding on lines 36-40). Every candidate
  then passes the window-overlap filter of `append_event`. The admitted
  occurrences are stable-sorted by start.
- **Transition detection** (`lambda_handler`). The resolver runs on a
  current window [now − 30, now + 30] and on a past window
  [now − 45, now + 30]. The stopping occurrences are the past ones whose
  key text (`get_key`: start, end, summary and description joined by
  `" - "`) is not among the current ones' key texts. The detector takes the
  key as a parameter. With `Identity.KeyText` it is the handler as written;
  with the tuple key `Identity.KeyOf` it is the corrected detector of the
  finding below.

Instants are whole minutes since 1970-01-01T00:00 UTC; seconds are
dropped. Dates are day numbers. Parsing the calendar and expanding the RRULE are done by foreign
libraries in the source, so the model takes them as inputs:
- a sequence of parsed `EventRecord`s;
- for each rule, its UNTIL value and the finite sequence of instants it generates.

The clock that `datetime.now()` reads at line 79 is a parameter (`clock`)
of a resolution. The handler runs two resolutions, the second one after the
start notifications have gone out, so `Transitions.Detect` takes two
readings: `clockCur` for the current window and `clockPast` for the past
window. The handler's own `now` (line 156) is a third parameter.

The model returns `Err` for two of the ways the source raises:
- a VEVENT without DTSTART (line 58 reads `.dt` of `None`);
- a date-time DTSTART paired with a bare-date DTEND. Python can neither
  compare such an end with the window (line 25) nor subtract the start
  from it (line 89).

The source raises in further ways that depend on timezones or on the value
types of the parsing libraries. These are listed under "Left out". The
first fault in document order aborts the whole resolution.

Modules: `CalendarTypes` (data), `Sequences` (subsequence), `Normalization`,
`Window`, `Recurrence`, `StableSort`, `Resolver`, `Identity`, `Transitions`,
`Scenarios` (worked cases).

`Resolver.Produces` and `Resolver.Faults` are declarative reference
definitions. They say which occurrences a record yields in a window, and when
resolving it raises. The recursive resolver is proved to agree with them.

Four behaviours of the source deserve a note:
- The overlap filter at lines 22-26 is inclusive and looks at the end, not
  only the start.
  Take an event from 12:00 to 12:30 with now = 12:50. The current window is
  [12:20, 13:20] and still overlaps it, so the event is **starting**, not
  stopping (`Scenarios.MeetingTwentyMinutesAfter`). At now = 13:00 it is
  still starting, because its end equals the window's opening. It stops as
  soon as now passes 13:00 (`Scenarios.MeetingStops` takes 13:01) and is
  gone at 13:16. The model counts whole minutes, so these cases assume a
  `now` exactly on the minute (see "Left out").
- The selection at line 178 keeps the multiplicity of the past list. Two
  past occurrences with one key both appear in the stopping list;
  deduplication is left to the idempotency store.
- The UNTIL gate at line 79 keeps a rule only while the UNTIL date's
  midnight is strictly after the clock. A rule is skipped once the clock
  reaches that midnight, so an UNTIL of today is already skipped.
- `between` at line 44 is exclusive at both ends, and the rule set yields
  its instants in strictly ascending order. The model filters the whole
  generated sequence; `Recurrence.ScanIsBetween` proves this equals the
  loop that stops at the first instant not before the window's close.

## Model

| member | source | states |
|---|---|---|
| Normalization.TextOrNone | lambda_function/scheduler_function.py:55-57 | an absent text field becomes the literal "None"; a present one is kept |
| Normalization.AbsentTextIsLiteralNone | lambda_function/scheduler_function.py:55-57 | an absent field and the literal text "None" are indistinguishable |
| Normalization.Midnight | lambda_function/scheduler_function.py:51-52 | the result is a UTC midnight: for a date, that date's midnight; for a date-time, the midnight that starts its day |
| Normalization.PlusOneMinute | lambda_function/scheduler_function.py:59 | adding one minute moves a date-time by exactly one minute and leaves a bare date unchanged |
| Normalization.Normalize | lambda_function/scheduler_function.py:58-70 | all-day iff DTSTART is a date; all-day start and end land on UTC midnights, a missing end giving end == start, a date-time end moving to the midnight that starts its day; a timed event keeps its start and DTEND, a missing end giving start + 1 |
| Window.Admits | lambda_function/scheduler_function.py:21-27 | a candidate is admitted iff ws <= end and start <= we, i.e. its closed span meets the window |
| Window.BoundsAreInclusive | lambda_function/scheduler_function.py:22-26 | start == we or end == ws is admitted |
| Window.EarlierOpeningKeeps | lambda_function/scheduler_function.py:22-26 | opening the window earlier never rejects a candidate it admitted |
| Recurrence.Entries | lambda_function/scheduler_function.py:33-34 | a scalar EXDATE becomes a one-element list, a list is kept, and an absent one becomes one shapeless entry |
| Recurrence.ExcludedInstants | lambda_function/scheduler_function.py:36-40 | an instant is excluded iff some entry carries it; shapeless entries add nothing and never fail |
| Recurrence.ScalarIsOneElementList | lambda_function/scheduler_function.py:33-34 | a scalar EXDATE excludes exactly what the one-element list excludes |
| Recurrence.AbsentExcludesNothing | lambda_function/scheduler_function.py:33-40 | with no EXDATE nothing is excluded |
| Recurrence.ShapelessEntriesExcludeNothing | lambda_function/scheduler_function.py:36-40 | when no entry exposes `.dt`, as with every EXDATE the source's calendar library produces, the `except` swallows each entry and nothing is excluded |
| Recurrence.ShapelessEntryIsSkipped | lambda_function/scheduler_function.py:36-40 | removing a shapeless entry from the list changes nothing |
| Recurrence.UntilDay | lambda_function/scheduler_function.py:77-78 | UNTIL is reduced to its date; a date-time UNTIL falls within that day |
| Recurrence.UntilLive | lambda_function/scheduler_function.py:77-79 | the gate: a bounded rule is live while the midnight that starts its UNTIL date is strictly after the clock; `Recurrence.UntilTimeOfDayIgnored` states that the time of day of UNTIL plays no part, and `Resolver.ElapsedRuleContributesNothing` that a rule failing the gate yields nothing in any window |
| Recurrence.UntilTimeOfDayIgnored | lambda_function/scheduler_function.py:77-79 | two UNTIL date-times on the same day give the same liveness verdict |
| Recurrence.Between | lambda_function/scheduler_function.py:42-46 | the result is the subsequence of generated instants d with ws < d < we and d not excluded, in generation order |
| Recurrence.BetweenCount | lambda_function/scheduler_function.py:42-46 | an instant strictly inside the window and not excluded comes out exactly as often as it was generated; any other instant never |
| Recurrence.AscendingOnce | lambda_function/scheduler_function.py:29-32 | instants generated in strictly ascending order are generated at most once each |
| Recurrence.ScanIsBetween | lambda_function/scheduler_function.py:44-45 | on ascending instants, the loop that skips excluded instants, stops at the first one not before the close and keeps those after the opening returns the same list as the whole-sequence filter |
| Recurrence.BetweenScan | lambda_function/scheduler_function.py:44-45 | the loop `between` runs, stopping at the first instant not before the close; every instant it returns is generated, strictly inside the window and not excluded, and `Recurrence.ScanIsBetween` proves it returns exactly `Recurrence.Between` on ascending instants |
| Recurrence.BetweenExcludesBounds | lambda_function/scheduler_function.py:44 | an instant exactly at ws or we is never generated |
| StableSort.Insert | lambda_function/scheduler_function.py:100 | inserting into a sorted list keeps it sorted and adds exactly the one element |
| StableSort.Sort | lambda_function/scheduler_function.py:100 | the result is ascending by start and a permutation of the input |
| StableSort.StartingAt | lambda_function/scheduler_function.py:100 | the elements with a given start, in input order; membership iff element of the input with that start |
| StableSort.InsertKeepsTies | lambda_function/scheduler_function.py:100 | an inserted element goes in front of the elements with its start |
| StableSort.SortIsStable | lambda_function/scheduler_function.py:100 | elements with equal start keep their input order |
| StableSort.SortedTiesDetermine | lambda_function/scheduler_function.py:100 | two sorted sequences with the same per-start order are equal |
| StableSort.StableSortIsUnique | lambda_function/scheduler_function.py:100 | every sorted, order-keeping rearrangement of the input equals Sort, so Sort is Python's stable sort by start |
| Resolver.Instances | lambda_function/scheduler_function.py:80-90 | each produced occurrence is a generated instant shifted by the duration, overlapping the window, and each such instant yields one |
| Resolver.InstancesCount | lambda_function/scheduler_function.py:80-90 | the instant loop yields an occurrence once per generated instant it starts at, when it has the event's shape and overlaps the window, and never otherwise |
| Resolver.RecurringCount | lambda_function/scheduler_function.py:42-90 | the instant loop over `between` yields an occurrence once per generated copy of its start, when that start is strictly inside the window, not excluded, and the occurrence has the event's shape and overlaps the window |
| Resolver.Contribution | lambda_function/scheduler_function.py:54-99 | a record raises iff `Faults` holds; otherwise its occurrences are exactly those `Produces` describes, and a missing DTSTART raises MissingStart |
| Resolver.ContributionCount | lambda_function/scheduler_function.py:54-99 | a record yields an occurrence only when the reference definition admits it: a single event once, a recurring one once per generated copy of its start |
| Resolver.AscendingContributionOnce | lambda_function/scheduler_function.py:29-99 | when the rule generates its instants in ascending order, as a rule set does, a record yields each occurrence the reference definition admits exactly once and no other |
| Resolver.ProducesRecurring | lambda_function/scheduler_function.py:73-90 | for a live recurring record, the reference definition is the event's shape at a generated, non-excluded instant strictly inside the window, overlapping it |
| Resolver.Join | lambda_function/scheduler_function.py:54-99 | the loop step raises iff the record or a later one raises, the earlier fault winning; otherwise it concatenates the lists in document order |
| Resolver.Gather | lambda_function/scheduler_function.py:54-99 | the per-record loop: each record's outcome joined to the rest in document order, the first fault aborting; `Resolver.GatherMeaning` states its meaning against the reference definitions |
| Resolver.GatherMeaning | lambda_function/scheduler_function.py:54-99 | the per-record loop raises iff some record faults; otherwise its candidates are exactly the occurrences some record produces |
| Resolver.Resolve | lambda_function/scheduler_function.py:18-101 | raises iff some record faults; otherwise the result is sorted by start, contains exactly the produced occurrences, all of them overlap the window, and it is a permutation of the gathered candidates |
| Resolver.ResolveIsStable | lambda_function/scheduler_function.py:100 | occurrences with equal start keep document and generation order |
| Resolver.SilentRecordIsSkipped | lambda_function/scheduler_function.py:54-99 | a record contributing nothing can be deleted from the per-record loop without changing its outcome |
| Resolver.SilentRecordIsInvisible | lambda_function/scheduler_function.py:54-101 | a record contributing nothing can be deleted without changing the result or the fault |
| Resolver.UnboundedRuleContributesNothing | lambda_function/scheduler_function.py:73-76 | a rule without UNTIL contributes nothing in any window |
| Resolver.ElapsedRuleContributesNothing | lambda_function/scheduler_function.py:77-79 | a rule whose UNTIL midnight is not after the clock contributes nothing in any window |
| Resolver.RecurringOccurrenceShape | lambda_function/scheduler_function.py:29-90 | a returned occurrence that only recurring records produce lies strictly inside the window, and some record has its start as a generated, non-excluded instant with the record's duration |
| Resolver.ProducesWiden | lambda_function/scheduler_function.py:173-175 | an occurrence of a window is an occurrence of any window opening earlier with the same close, at any clock reading giving the record's UNTIL the same verdict |
| Resolver.FaultsWiden | lambda_function/scheduler_function.py:173-175 | a record that raises in a window raises in any window opening earlier with the same close, at any clock reading giving its UNTIL the same verdict |
| Resolver.ResolveWiden | lambda_function/scheduler_function.py:173-175 | widening the window backwards, at a clock reading that agrees on every UNTIL, keeps every fault and every occurrence |
| Identity.KeyIsIdentity | lambda_function/scheduler_function.py:104-105 | two keys are equal iff start, end, summary and description are |
| Identity.KeyIgnoresLocation | lambda_function/scheduler_function.py:104-105 | occurrences differing only in location share their key |
| Identity.KeyText | lambda_function/scheduler_function.py:104-105 | `get_key` as written: start, end, summary and description joined by " - "; `Identity.KeyTextFollowsKey` states it depends on those four fields only, and `Identity.KeyTextCollides` that distinct tuples can share it |
| Identity.KeyTextFollowsKey | lambda_function/scheduler_function.py:104-105 | the rendered key text depends only on the four key fields |
| Identity.KeyTextCollides | lambda_function/scheduler_function.py:104-105 | two occurrences with different summaries and descriptions render to the same key text |
| Transitions.PastWindowContainsCurrent | lambda_function/scheduler_function.py:156-174 | current window is [now-30, now+30], past is [now-45, now+30]; the past one contains the current one, which contains now |
| Transitions.KeySet | lambda_function/scheduler_function.py:177 | for any key function, the set holds the key of every occurrence and nothing else |
| Transitions.Select | lambda_function/scheduler_function.py:178 | an order-preserving selection of exactly the elements whose key is in the set, with their multiplicity |
| Transitions.Stopping | lambda_function/scheduler_function.py:177-178 | a subsequence of the past list holding exactly the past occurrences whose key the current list lacks, each as often as in the past list |
| Transitions.StoppingKeepsKeyGroups | lambda_function/scheduler_function.py:177-178 | past occurrences sharing a key are kept or dropped together; with the key text, so are occurrences whose texts collide |
| Transitions.Detect | lambda_function/scheduler_function.py:150-178 | no key is both starting and stopping; the run completes iff no record faults in the current window at the first clock reading and in the past window at the second; after a fault nothing stops |
| Transitions.DetectSplitsPastKeys | lambda_function/scheduler_function.py:156-178 | when the two clock readings agree on every UNTIL, the past window's keys are exactly the starting keys plus the stopping keys, and the two are disjoint |
| Transitions.DetectGuarantee | lambda_function/scheduler_function.py:156-178 | starting holds exactly the current-window occurrences; stopping holds exactly the past-window occurrences whose key is not starting |
| Transitions.TextStopsWithinIdentity | lambda_function/scheduler_function.py:177-178 | whatever the key text stops, the tuple key stops as well |
| Transitions.TextKeyHidesStop | lambda_function/scheduler_function.py:177-178 | a past occurrence whose key text collides with a different current occurrence is not stopped by the key text, and is stopped by the tuple key |
| Transitions.IdentityStopping | lambda_function/scheduler_function.py:156-178 | with the tuple key, an occurrence stops iff a record produces it in the past window and no starting occurrence agrees with it on start, end, summary and description |
| Scenarios.MeetingDuring | lambda_function/scheduler_function.py:156-178 | 12:00-12:30 at now 12:15: starting, not stopping |
| Scenarios.MeetingTwentyMinutesAfter | lambda_function/scheduler_function.py:156-178 | at now 12:50 the meeting is still starting |
| Scenarios.MeetingEndsAtWindowOpen | lambda_function/scheduler_function.py:156-178 | at now 13:00 (end equals window opening) still starting |
| Scenarios.MeetingStops | lambda_function/scheduler_function.py:156-178 | at now 13:01 stopping only |
| Scenarios.MeetingGone | lambda_function/scheduler_function.py:156-178 | at now 13:16 in neither list |
| Scenarios.ThirdStandupFound | lambda_function/scheduler_function.py:73-90 | a weekly rule yields its third instance, with its 30-minute duration, in a window around it |
| Scenarios.ThirdStandupExcluded | lambda_function/scheduler_function.py:33-45 | an EXDATE entry exposing the third instance suppresses it, as the evidently intended exclusion does |
| Scenarios.ThirdStandupKeptAsWritten | lambda_function/scheduler_function.py:33-45 | the same EXDATE as the source's calendar library hands it over, without `.dt`, suppresses nothing: the third instance is still returned |
| Scenarios.InstanceAtWindowOpenIsSkipped | lambda_function/scheduler_function.py:44 | a recurring instance at the window's opening is not generated, while a single event there is admitted |
| Scenarios.ElapsedStandupIsSkipped | lambda_function/scheduler_function.py:77-79 | once the clock reaches the UNTIL date's midnight the rule yields nothing |
| Scenarios.AllDayWithoutEnd | lambda_function/scheduler_function.py:58-67 | an all-day event without DTEND starts and ends at its date's midnight |
| Scenarios.NightlyIn | lambda_function/scheduler_function.py:77-90 | a job across midnight is found while the clock is before its UNTIL date's midnight and not once the clock reaches it |
| Scenarios.MidnightBetweenReadings | lambda_function/scheduler_function.py:156-178 | when the UNTIL midnight passes between the two clock readings, the job is starting and not stopping although the past window lacks it |
| Scenarios.DateEndOnTimedStartRaises | lambda_function/scheduler_function.py:22-25 | a timed start with a date end raises when the window reaches it, and not when the event starts after the window |

## Left out

- Calendar parsing (`icalendar.Calendar.from_ical` and the VEVENT filter, lines 48-49) is a foreign library. Records arrive already parsed, so a malformed document is not modelled.
- RRULE parsing and expansion (`rrulestr`, `rruleset`, lines 30-32) are a foreign library. A rule is given as its UNTIL value and the instants it generates. Errors raised by the rule parser are not modelled.
- An RRULE that parses to an empty value is falsy at line 73, so the record is handled as a single event. The model has one `None` for both absent and empty rules.
- Recurrence.ExcludedInstants models the evidently intended exclusion: an entry that exposes an instant excludes it. As written, the source reads `xdt.dt` at line 38 from each value of the `icalendar` library imported at line 3. That library's EXDATE value keeps its dates under `.dts` and has no `.dt`, so every entry raises AttributeError, the `except` at lines 39-40 swallows it, and the program excludes nothing (see "Findings"). The rest of the model uses the intended exclusion.
- Instants are whole minutes. The seconds and microseconds of the handler's `now` (line 156), of `datetime.now()` (line 79) and of iCalendar date-times are not modelled. The cases where an end equals a window's opening occur in the source only when `now` falls exactly on a minute; at now = 13:00:00.5 the 12:30 end is already before the current window's opening, so the meeting stops.
- Timezones are left out; every instant is UTC. This includes the naive-versus-aware comparison at lines 78-79 and `date_to_datetime` reading the year, month and day in an event's own zone.
- A naive (floating) DTSTART or DTEND makes the comparisons at lines 22 and 25, and the sort at line 100, raise a TypeError against the aware window bounds. Naive date-times are not modelled, so neither is this error.
- `rrulestr` at line 31 raises a ValueError when UNTIL and DTSTART disagree on having a timezone. This includes every all-day recurring event whose UNTIL is a date, because `date_to_datetime` makes its start aware. The model gives such a record its rule's instants instead; rule parser errors are not modelled.
- An EXDATE that is a bare date makes `between` at line 44 compare a date with date-times, which raises. The model has only instants as EXDATE values, so this error is not modelled.
- `datetime.now()` at lines 79 and 156 are clock reads. They are parameters.
- Resolver.Resolve: within one resolution, one clock reading serves every record, whereas line 79 reads the clock afresh for each recurring record. A midnight passing during one resolution is not modelled; between the two resolutions it is.
- Identity.KeyText prints instants as a decimal count of minutes, not as Python's `str(datetime)`. Both renderings are injective, and the key collision it exhibits is in the text fields.
- Resolver.Resolve states when a resolution raises but not which fault it reports when several records fault. The body returns the first in document order, as the source does.
- `is_duplicate` and `save_event` (lines 108-135) are DynamoDB I/O.
- `publish_event` (lines 138-148) is SNS I/O and JSON serialisation.
- Fetching the calendar with `urlopen` and reading environment variables (lines 151-154, 168, 188) is I/O and configuration.
- The notification loops of the handler (lines 161-170, 180-190) are I/O driven by the lists the model computes.

## Findings

| source | as written | input that shows it | evidently intended | confidence | as-written member | corrected member |
|---|---|---|---|---|---|---|
| lambda_function/scheduler_function.py:36-40 | each EXDATE value is asked for `.dt`, and an AttributeError is silently skipped | an event repeating weekly with an EXDATE line at its third instance; `icalendar` parses the line into a value with `.dts` and no `.dt`, so the third instance is still returned | the EXDATE instants are removed from the expansion, as RFC 5545 section 3.8.5.1 defines | medium (rests on the `icalendar` value type having no `.dt`); not executed | Scenarios.ThirdStandupKeptAsWritten | Recurrence.ExcludedInstants |
| lambda_function/scheduler_function.py:104-105 | the ended-event difference compares key texts, which join start, end, summary and description with " - " | two occurrences with the same start and end: one with summary "Standup - Team" and description "Room", the other with summary "Standup" and description "Team - Room"; both render as "… - Standup - Team - Room". With the first in the past window and the second in the current one, the first is never reported as stopping | distinct (start, end, summary, description) tuples get distinct keys, so one event is never taken for another when deciding what stopped or what was already notified | low (needs " - " inside a text field); not executed | Transitions.TextKeyHidesStop | Transitions.IdentityStopping |

`Recurrence.ShapelessEntriesExcludeNothing` states the as-written exclusion
in general: when no entry exposes `.dt`, nothing is excluded.
`Scenarios.ThirdStandupExcluded` shows the corrected exclusion on the same
event.

`Identity.KeyTextCollides` shows the collision itself.
`Transitions.Detect` with `Identity.KeyText` is the detector as written, and
`Transitions.TextStopsWithinIdentity` shows that it can only stop fewer
occurrences than the corrected detector. The corrected detector is
`Transitions.Detect` with `Identity.KeyOf`: `Transitions.IdentityStopping`
proves what it stops, and `Identity.KeyIsIdentity` proves that its key
separates distinct tuples. The worked cases use the key text, as the
handler does.

=== FILE: calendar_types.dfy ===
/** Data model of the calendar scheduler: raw event records as the calendar
    parser hands them over, the concrete occurrences the resolver produces,
    and the faults that abort a resolution.

    Every instant is an integer count of minutes since 1970-01-01T00:00 UTC;
    every bare date is an integer count of days since 1970-01-01. */
module CalendarTypes {

  /** Minutes in one day: the UTC midnight of day `d` is `d * MinutesPerDay`. */
  const MinutesPerDay: int := 1440

  datatype Option<+T> = None | Some(value: T)

  /** A DTSTART, DTEND or UNTIL value: a bare date ("all-day") or a date-time. */
  datatype When = OnDate(day: int) | At(minute: int)

  /** One EXDATE entry. An entry that exposes an instant is honoured; any other
      shape (including the absent property) is skipped. */
  datatype ExEntry = HasInstant(instant: int) | NoInstant

  /** The EXDATE property as read from the event: absent, a single value, or a
      list of values (one per EXDATE line). */
  datatype ExDates = NoExDate | OneExDate(entry: ExEntry) | ExDateList(entries: seq<ExEntry>)

  /** A recurrence rule, already parsed. `until` is the rule's UNTIL part, if
      any; `instances` are the instants the rule generates from the event's
      normalised start, in generation order, which for a rule set is strictly
      ascending (`Recurrence.Ascending`). Because rules without UNTIL are
      never expanded, a finite sequence is an exact stand-in. */
  datatype Rule = Rule(until: Option<When>, instances: seq<int>)

  /** One VEVENT as parsed from the calendar document. */
  datatype EventRecord = EventRecord(
    summary: Option<string>,
    description: Option<string>,
    location: Option<string>,
    start: Option<When>,
    end: Option<When>,
    rule: Option<Rule>,
    exdate: ExDates)

  /** One concrete occurrence inside a query window. */
  datatype Occurrence = Occurrence(
    start: int,
    end: int,
    allDay: bool,
    summary: string,
    description: string,
    location: string)

  /** Why a resolution raises instead of returning a list.
      MissingStart: a VEVENT without DTSTART.
      DateEndOnTimedStart: a date-time DTSTART paired with a bare-date DTEND,
      whose end can be neither compared with the window nor subtracted from
      the start. */
  datatype Fault = MissingStart | DateEndOnTimedStart

  datatype Outcome<+T> = Ok(value: T) | Err(fault: Fault)
}

=== FILE: identity.dfy ===
/** The identity of an occurrence (`get_key`): its start, end, summary and
    description. The source renders these four fields into one text joined by
    " - "; `KeyText` models that rendering as written, and `Key` is the tuple
    the rendering stands for, which the transition detector compares. */
module Identity {
  import opened CalendarTypes

  /** The identity of an occurrence as a tuple of the four fields. */
  datatype Key = Key(start: int, end: int, summary: string, description: string)

  function KeyOf(o: Occurrence): Key
  {
    Key(o.start, o.end, o.summary, o.description)
  }

  /** Two occurrences have the same key exactly when they agree on start,
      end, summary and description; the location and the all-day flag play
      no part. */
  lemma KeyIsIdentity(a: Occurrence, b: Occurrence)
    ensures KeyOf(a) == KeyOf(b) <==>
      a.start == b.start && a.end == b.end && a.summary == b.summary && a.description == b.description
  {
  }

  /** Occurrences that differ only in location share their key. */
  lemma KeyIgnoresLocation(o: Occurrence, location: string)
    ensures KeyOf(o.(location := location)) == KeyOf(o)
  {
  }

  /** The decimal digits of `n`, most significant first. */
  function Digits(n: nat): (r: string)
    ensures |r| >= 1
    ensures forall i :: 0 <= i < |r| ==> '0' <= r[i] <= '9'
  {
    var last := [(n % 10) as char + '0'];
    if n < 10 then last else Digits(n / 10) + last
  }

  /** The text of an instant inside a key. The source prints a date-time;
      here the minute count is printed in decimal, which is just as
      injective. */
  function InstantText(m: int): (r: string)
    ensures |r| >= 1
    ensures r[0] == '-' <==> m < 0
  {
    if m < 0 then "-" + Digits(-m) else Digits(m)
  }

  /** `get_key` as written: the four fields joined by " - ". */
  function KeyText(o: Occurrence): string
  {
    InstantText(o.start) + " - " + InstantText(o.end) + " - " + o.summary + " - " + o.description
  }

  /** The rendered text depends on the tuple key alone. */
  lemma KeyTextFollowsKey(a: Occurrence, b: Occurrence)
    requires KeyOf(a) == KeyOf(b)
    ensures KeyText(a) == KeyText(b)
  {
  }

  /** The rendered text is not injective: a " - " inside the summary or the
      description can be moved across the separator, so two occurrences with
      different summaries and descriptions, at the same time, get one text. */
  lemma KeyTextCollides()
    ensures var a := Occurrence(0, 30, false, "Standup - Team", "Room", "None");
            var b := Occurrence(0, 30, false, "Standup", "Team - Room", "None");
            KeyText(a) == KeyText(b) && KeyOf(a) != KeyOf(b)
  {
    var a := Occurrence(0, 30, false, "Standup - Team", "Room", "None");
    var b := Occurrence(0, 30, false, "Standup", "Team - Room", "None");
    var prefix := InstantText(0) + " - " + InstantText(30) + " - ";
    assert KeyText(a) == prefix + "Standup - Team" + " - " + "Room";
    assert KeyText(b) == prefix + "Standup" + " - " + "Team - Room";
    assert "Standup - Team" + " - " + "Room" == "Standup" + " - " + "Team - Room";
    assert KeyOf(a).summary != KeyOf(b).summary;
  }
}

=== FILE: normalize.dfy ===
/** Normalisation of one event record: text defaults and the start/end pair
    (scheduler_function.py, the head of the per-event loop). */
module Normalization {
  import opened CalendarTypes

  /** A text property as the source reads it: `str()` of the value, so an
      absent property becomes the literal text "None". */
  function TextOrNone(t: Option<string>): (r: string)
    ensures t.None? ==> r == "None"
    ensures t.Some? ==> r == t.value
  {
    match t
    case Some(s) => s
    case None => "None"
  }

  /** An absent text and the literal text "None" cannot be told apart. */
  lemma AbsentTextIsLiteralNone()
    ensures TextOrNone(None) == TextOrNone(Some("None"))
  {
  }

  /** `date_to_datetime`: the UTC midnight of the value's calendar date. A
      date-time is truncated to the midnight that starts its day. */
  function Midnight(w: When): (r: int)
    ensures r % MinutesPerDay == 0
    ensures w.OnDate? ==> r == w.day * MinutesPerDay
    ensures w.At? ==> r <= w.minute < r + MinutesPerDay
  {
    match w
    case OnDate(d) => d * MinutesPerDay
    case At(m) => (m / MinutesPerDay) * MinutesPerDay
  }

  /** `raw + timedelta(minutes=1)`: a date-time moves on one minute, while a
      bare date ignores the sub-day part of the delta and stays the same date. */
  function PlusOneMinute(w: When): (r: When)
    ensures r.OnDate? <==> w.OnDate?
    ensures w.OnDate? ==> r == w
    ensures w.At? ==> r.minute - w.minute == 1
  {
    match w
    case OnDate(d) => OnDate(d)
    case At(m) => At(m + 1)
  }

  /** The normalised start and end of an event. `end` stays a `When` because
      a date-time start keeps whatever DTEND it was given, bare date or not. */
  datatype Span = Span(start: int, end: When, allDay: bool)

  /** Start/end normalisation: an all-day start is promoted to UTC midnight
      and so is its end; a timed event keeps its own start and end; a missing
      DTEND defaults to one minute after the raw start. */
  function Normalize(start: When, end: Option<When>): (s: Span)
    ensures s.allDay <==> start.OnDate?
    ensures s.allDay ==> s.start == start.day * MinutesPerDay
    ensures s.allDay ==> s.end.At? && s.end.minute % MinutesPerDay == 0
    ensures s.allDay && end.None? ==> s.end == At(s.start)
    ensures s.allDay && end.Some? && end.value.OnDate? ==> s.end == At(end.value.day * MinutesPerDay)
    ensures s.allDay && end.Some? && end.value.At? ==> s.end.minute <= end.value.minute < s.end.minute + MinutesPerDay
    ensures !s.allDay ==> s.start == start.minute
    ensures !s.allDay && end.None? ==> s.end == At(s.start + 1)
    ensures !s.allDay && end.Some? ==> s.end == end.value
  {
    var rawEnd := if end.Some? then end.value else PlusOneMinute(start);
    match start
    case OnDate(_) => Span(Midnight(start), At(Midnight(rawEnd)), true)
    case At(m) => Span(m, rawEnd, false)
  }
}

=== FILE: recurrence.dfy ===
/** Recurrence handling: the UNTIL gate, the EXDATE normalisation and the
    windowed expansion done by `get_recurrent_datetimes`. */
module Recurrence {
  import opened CalendarTypes
  import opened Sequences

  /** The EXDATE value as a list: a scalar becomes a one-element list, and the
      absent property becomes the list holding one shapeless entry. */
  function Entries(x: ExDates): (es: seq<ExEntry>)
    ensures |es| >= 1 || x.ExDateList?
    ensures x.NoExDate? ==> es == [NoInstant]
    ensures x.OneExDate? ==> es == [x.entry]
    ensures x.ExDateList? ==> es == x.entries
  {
    match x
    case NoExDate => [NoInstant]
    case OneExDate(e) => [e]
    case ExDateList(es) => es
  }

  /** The instants the entries exclude; entries without an instant are
      skipped rather than failing. */
  function ExcludedInstants(es: seq<ExEntry>): (r: set<int>)
    ensures forall d :: d in r <==> HasInstant(d) in es
  {
    if |es| == 0 then {}
    else
      var head := if es[0].HasInstant? then {es[0].instant} else {};
      var rest := ExcludedInstants(es[1..]);
      assert forall e :: e in es <==> e == es[0] || e in es[1..];
      head + rest
  }

  /** The instants an event's EXDATE excludes. */
  function Excluded(x: ExDates): set<int>
  {
    ExcludedInstants(Entries(x))
  }

  /** A scalar EXDATE is treated exactly as a one-element list. */
  lemma ScalarIsOneElementList(e: ExEntry)
    ensures Excluded(OneExDate(e)) == Excluded(ExDateList([e]))
  {
  }

  /** An absent EXDATE excludes nothing. */
  lemma AbsentExcludesNothing()
    ensures Excluded(NoExDate) == {}
  {
  }

  /** The calendar library of the source parses an EXDATE property, with one
      date or several, into a list object that has no `.dt`. Every entry is
      then shapeless, and nothing is excluded. */
  lemma ShapelessEntriesExcludeNothing(x: ExDates)
    requires forall e :: e in Entries(x) ==> e == NoInstant
    ensures Excluded(x) == {}
  {
    forall d
      ensures d !in Excluded(x)
    {
      assert HasInstant(d) !in Entries(x);
    }
  }

  /** A shapeless entry can be dropped from the list without changing what is
      excluded. */
  lemma ShapelessEntryIsSkipped(es: seq<ExEntry>, i: int)
    requires 0 <= i < |es| && es[i] == NoInstant
    ensures ExcludedInstants(es) == ExcludedInstants(es[..i] + es[i + 1..])
  {
    var es' := es[..i] + es[i + 1..];
    forall d
      ensures d in ExcludedInstants(es) <==> d in ExcludedInstants(es')
    {
      if HasInstant(d) in es {
        var j :| 0 <= j < |es| && es[j] == HasInstant(d);
        if j < i {
          assert es'[j] == es[j];
        } else {
          assert j > i;
          assert es'[j - 1] == es[j];
        }
      }
      if HasInstant(d) in es' {
        var j :| 0 <= j < |es'| && es'[j] == HasInstant(d);
        if j < i {
          assert es[j] == es'[j];
        } else {
          assert es[j + 1] == es'[j];
        }
      }
    }
    assert ExcludedInstants(es) == ExcludedInstants(es');
  }

  /** The calendar day of an UNTIL value (time of day discarded). */
  function UntilDay(w: When): (day: int)
    ensures w.OnDate? ==> day == w.day
    ensures w.At? ==> day * MinutesPerDay <= w.minute < (day + 1) * MinutesPerDay
  {
    match w
    case OnDate(d) => d
    case At(m) => m / MinutesPerDay
  }

  /** A bounded rule is still live when the midnight of its UNTIL date is
      strictly after the clock reading. */
  predicate UntilLive(until: When, clock: int)
  {
    UntilDay(until) * MinutesPerDay > clock
  }

  /** An UNTIL on a date-time is judged by its date alone: any two instants of
      the same day agree on liveness. */
  lemma UntilTimeOfDayIgnored(m1: int, m2: int, clock: int)
    requires m1 / MinutesPerDay == m2 / MinutesPerDay
    ensures UntilLive(At(m1), clock) <==> UntilLive(At(m2), clock)
  {
  }

  /** `rules.between(ws, we)` on the rule set with its exclusions: the
      generated instants strictly inside the window that no exclusion
      matches, in generation order. */
  function Between(ds: seq<int>, excluded: set<int>, ws: int, we: int): (r: seq<int>)
    ensures IsSubsequence(r, ds)
    ensures forall d :: d in r <==> d in ds && ws < d < we && d !in excluded
  {
    if |ds| == 0 then []
    else
      var rest := Between(ds[1..], excluded, ws, we);
      assert forall d :: d in ds <==> d == ds[0] || d in ds[1..];
      if ws < ds[0] < we && ds[0] !in excluded then [ds[0]] + rest else rest
  }

  /** An instant `between` keeps: strictly inside the window and not
      excluded. */
  predicate Inside(excluded: set<int>, ws: int, we: int, d: int)
  {
    ws < d < we && d !in excluded
  }

  /** `between` keeps every copy of an instant it keeps: an instant strictly
      inside the window and not excluded comes out as often as it was
      generated, any other instant not at all. */
  lemma {:induction false} BetweenCount(ds: seq<int>, excluded: set<int>, ws: int, we: int, d: int)
    ensures multiset(Between(ds, excluded, ws, we))[d] == if Inside(excluded, ws, we, d) then multiset(ds)[d] else 0
  {
    if |ds| > 0 {
      BetweenCount(ds[1..], excluded, ws, we, d);
      assert ds == [ds[0]] + ds[1..];
    }
  }

  /** Strictly ascending, the order in which a rule set yields its instants. */
  predicate Ascending(ds: seq<int>)
  {
    forall i, j :: 0 <= i < j < |ds| ==> ds[i] < ds[j]
  }

  /** An ascending sequence generates each instant at most once. */
  lemma {:induction false} AscendingOnce(ds: seq<int>, d: int)
    requires Ascending(ds)
    ensures multiset(ds)[d] <= 1
  {
    if |ds| > 0 {
      assert ds == [ds[0]] + ds[1..];
      assert Ascending(ds[1..]) by {
        forall i, j | 0 <= i < j < |ds[1..]|
          ensures ds[1..][i] < ds[1..][j]
        {
          assert ds[1..][i] == ds[i + 1] && ds[1..][j] == ds[j + 1];
        }
      }
      AscendingOnce(ds[1..], d);
      if ds[0] == d {
        assert d !in ds[1..] by {
          forall k | 0 <= k < |ds[1..]|
            ensures ds[1..][k] != d
          {
            assert ds[1..][k] == ds[k + 1];
          }
        }
      }
    }
  }

  /** The loop `between` actually runs: the rule set yields its instants in
      order with the excluded ones skipped, the loop stops at the first
      yielded instant not before `we`, and keeps those after `ws`. */
  function BetweenScan(ds: seq<int>, excluded: set<int>, ws: int, we: int): (r: seq<int>)
    ensures forall d :: d in r ==> d in ds && ws < d < we && d !in excluded
  {
    if |ds| == 0 then []
    else if ds[0] in excluded then BetweenScan(ds[1..], excluded, ws, we)
    else if ds[0] >= we then []
    else (if ws < ds[0] then [ds[0]] else []) + BetweenScan(ds[1..], excluded, ws, we)
  }

  /** No instant before `we` means nothing to return. */
  lemma NothingBeforeClose(ds: seq<int>, excluded: set<int>, ws: int, we: int)
    requires forall i :: 0 <= i < |ds| ==> ds[i] >= we
    ensures Between(ds, excluded, ws, we) == []
  {
  }

  /** On ascending instants, filtering the whole sequence is the same as the
      loop that stops at the first instant not before `we`. */
  lemma {:induction false} ScanIsBetween(ds: seq<int>, excluded: set<int>, ws: int, we: int)
    requires Ascending(ds)
    ensures BetweenScan(ds, excluded, ws, we) == Between(ds, excluded, ws, we)
  {
    if |ds| > 0 {
      assert Ascending(ds[1..]) by {
        forall i, j | 0 <= i < j < |ds[1..]|
          ensures ds[1..][i] < ds[1..][j]
        {
          assert ds[1..][i] == ds[i + 1] && ds[1..][j] == ds[j + 1];
        }
      }
      if ds[0] !in excluded && ds[0] >= we {
        forall i | 0 <= i < |ds[1..]|
          ensures ds[1..][i] >= we
        {
          assert ds[1..][i] == ds[i + 1];
        }
        NothingBeforeClose(ds[1..], excluded, ws, we);
      } else {
        ScanIsBetween(ds[1..], excluded, ws, we);
      }
    }
  }

  /** The exclusive bounds of `between`: an instance exactly at either end of
      the window is never generated. */
  lemma BetweenExcludesBounds(ds: seq<int>, excluded: set<int>, ws: int, we: int)
    ensures ws !in Between(ds, excluded, ws, we)
    ensures we !in Between(ds, excluded, ws, we)
  {
  }
}

=== FILE: resolver.dfy ===
/** The occurrence resolver, `get_events_from_ics`: every event record is
    normalised, expanded when it recurs, filtered against the window, and the
    admitted occurrences are stable-sorted by start. */
module Resolver {
  import opened CalendarTypes
  import opened Sequences
  import opened Normalization
  import opened Window
  import opened Recurrence
  import opened StableSort

  /** The occurrence of `e` running from `start` to `end`, carrying the
      event's texts and the all-day flag. */
  function Shape(e: EventRecord, allDay: bool, start: int, end: int): Occurrence
  {
    Occurrence(start, end, allDay, TextOrNone(e.summary), TextOrNone(e.description), TextOrNone(e.location))
  }

  /** Reference definition: `o` is an occurrence of `e` inside [ws, we] when
      the resolver is asked at clock reading `clock`. A single event yields its
      own normalised span; a recurring one yields each generated instant
      strictly inside the window that is not excluded, shifted by the event's
      own duration, provided the rule has an UNTIL whose date is still ahead.
      Either way the occurrence must overlap the window. */
  ghost predicate Produces(e: EventRecord, o: Occurrence, ws: int, we: int, clock: int)
  {
    && e.start.Some?
    && var sp := Normalize(e.start.value, e.end);
    && sp.end.At?
    && o == Shape(e, sp.allDay, o.start, o.end)
    && ws <= o.end && o.start <= we
    && match e.rule
       case None => o.start == sp.start && o.end == sp.end.minute
       case Some(rule) =>
         && rule.until.Some? && UntilLive(rule.until.value, clock)
         && o.start in rule.instances
         && ws < o.start < we
         && o.start !in Excluded(e.exdate)
         && o.end - o.start == sp.end.minute - sp.start
  }

  /** Reference definition of when resolving `e` raises: DTSTART missing, or
      a bare-date end on a timed start that reaches a comparison with the
      window (single event starting no later than the window's end) or a
      subtraction (recurring event with at least one instance to shift). */
  ghost predicate Faults(e: EventRecord, ws: int, we: int, clock: int)
  {
    || e.start.None?
    || (var sp := Normalize(e.start.value, e.end);
        && sp.end.OnDate?
        && match e.rule
           case None => sp.start <= we
           case Some(rule) =>
             && rule.until.Some? && UntilLive(rule.until.value, clock)
             && exists d :: d in rule.instances && ws < d < we && d !in Excluded(e.exdate))
  }

  /** The loop over `get_recurrent_datetimes`: one candidate per instant,
      ending `dur` minutes after it, each passed through `append_event`. */
  function Instances(e: EventRecord, allDay: bool, ds: seq<int>, dur: int, ws: int, we: int): (r: seq<Occurrence>)
    ensures |r| <= |ds|
    ensures forall o {:trigger o in r} :: o in r <==>
      o.start in ds && o == Shape(e, allDay, o.start, o.start + dur) && ws <= o.end && o.start <= we
  {
    if |ds| == 0 then []
    else
      var rest := Instances(e, allDay, ds[1..], dur, ws, we);
      var head := Shape(e, allDay, ds[0], ds[0] + dur);
      assert forall d :: d in ds <==> d == ds[0] || d in ds[1..];
      if Admits(head.start, head.end, ws, we) then [head] + rest else rest
  }

  /** `o` has the shape of `e` lasting `dur` minutes and overlaps the window. */
  predicate Fits(e: EventRecord, allDay: bool, dur: int, ws: int, we: int, o: Occurrence)
  {
    o == Shape(e, allDay, o.start, o.start + dur) && ws <= o.end && o.start <= we
  }

  /** How often the instant loop yields `o`: once per generated instant it
      starts at, provided it has the event's shape and overlaps the window;
      nothing is duplicated or added. */
  lemma {:induction false} InstancesCount(e: EventRecord, allDay: bool, ds: seq<int>, dur: int, ws: int, we: int, o: Occurrence)
    ensures multiset(Instances(e, allDay, ds, dur, ws, we))[o] == if Fits(e, allDay, dur, ws, we, o) then multiset(ds)[o.start] else 0
  {
    if |ds| > 0 {
      InstancesStep(e, allDay, ds, dur, ws, we, o);
      InstancesCount(e, allDay, ds[1..], dur, ws, we, o);
      assert ds == [ds[0]] + ds[1..];
      assert multiset(ds)[o.start] == (if ds[0] == o.start then 1 else 0) + multiset(ds[1..])[o.start];
    }
  }

  /** One turn of the instant loop: the first instant adds `o` once exactly
      when `o` is the event's shape at that instant and overlaps the window. */
  lemma InstancesStep(e: EventRecord, allDay: bool, ds: seq<int>, dur: int, ws: int, we: int, o: Occurrence)
    requires |ds| > 0
    ensures multiset(Instances(e, allDay, ds, dur, ws, we))[o] ==
      (if Fits(e, allDay, dur, ws, we, o) && ds[0] == o.start then 1 else 0) + multiset(Instances(e, allDay, ds[1..], dur, ws, we))[o]
  {
    var rest := Instances(e, allDay, ds[1..], dur, ws, we);
    var head := Shape(e, allDay, ds[0], ds[0] + dur);
    if Admits(head.start, head.end, ws, we) {
      assert Instances(e, allDay, ds, dur, ws, we) == [head] + rest;
      assert multiset([head] + rest)[o] == (if head == o then 1 else 0) + multiset(rest)[o];
      assert head == o <==> Fits(e, allDay, dur, ws, we, o) && ds[0] == o.start;
    } else {
      assert Instances(e, allDay, ds, dur, ws, we) == rest;
      assert !(Fits(e, allDay, dur, ws, we, o) && ds[0] == o.start);
    }
  }

  /** What one event record adds to the result, or the fault it raises. */
  function Contribution(e: EventRecord, ws: int, we: int, clock: int): (r: Outcome<seq<Occurrence>>)
    ensures r.Err? <==> Faults(e, ws, we, clock)
    ensures r.Err? && e.start.None? ==> r.fault == MissingStart
    ensures r.Ok? ==> forall o :: o in r.value <==> Produces(e, o, ws, we, clock)
  {
    match e.start
    case None => Err(MissingStart)
    case Some(start) =>
      var sp := Normalize(start, e.end);
      match e.rule
      case None =>
        if sp.start > we then Ok([])
        else if sp.end.OnDate? then Err(DateEndOnTimedStart)
        else if Admits(sp.start, sp.end.minute, ws, we) then Ok([Shape(e, sp.allDay, sp.start, sp.end.minute)])
        else Ok([])
      case Some(rule) =>
        if rule.until.None? then Ok([])
        else if !UntilLive(rule.until.value, clock) then Ok([])
        else
          var ds := Between(rule.instances, Excluded(e.exdate), ws, we);
          if sp.end.OnDate? then
            if |ds| == 0 then Ok([])
            else
              assert ds[0] in ds;
              Err(DateEndOnTimedStart)
          else Ok(Instances(e, sp.allDay, ds, sp.end.minute - sp.start, ws, we))
  }

  /** How often one record yields `o`: a single event at most once, a
      recurring one once per generated instant `o` starts at, and only
      occurrences the reference definition admits. */
  lemma ContributionCount(e: EventRecord, ws: int, we: int, clock: int, o: Occurrence)
    requires Contribution(e, ws, we, clock).Ok?
    ensures multiset(Contribution(e, ws, we, clock).value)[o] ==
      if Produces(e, o, ws, we, clock) then (if e.rule.Some? then multiset(e.rule.value.instances)[o.start] else 1) else 0
  {
    var sp := Normalize(e.start.value, e.end);
    if e.rule.None? {
      SingleCount(e, ws, we, clock, o);
    } else if e.rule.value.until.Some? && UntilLive(e.rule.value.until.value, clock) && sp.end.At? {
      LiveContribution(e, ws, we, clock, sp);
      RecurringCount(e, sp, ws, we, Between(e.rule.value.instances, Excluded(e.exdate), ws, we), o);
      ProducesRecurring(e, ws, we, clock, o, sp);
      assert o.start !in e.rule.value.instances ==> multiset(e.rule.value.instances)[o.start] == 0;
    } else {
      assert Contribution(e, ws, we, clock).value == [];
      assert !Produces(e, o, ws, we, clock);
    }
  }

  /** A rule that generates its instants in ascending order, as a rule set
      does, yields each occurrence exactly once when the reference
      definition admits it, and never otherwise. */
  lemma AscendingContributionOnce(e: EventRecord, ws: int, we: int, clock: int, o: Occurrence)
    requires Contribution(e, ws, we, clock).Ok?
    requires e.rule.Some? ==> Ascending(e.rule.value.instances)
    ensures multiset(Contribution(e, ws, we, clock).value)[o] == if Produces(e, o, ws, we, clock) then 1 else 0
  {
    ContributionCount(e, ws, we, clock, o);
    if e.rule.Some? {
      AscendingOnce(e.rule.value.instances, o.start);
    }
    if Produces(e, o, ws, we, clock) {
      assert o in Contribution(e, ws, we, clock).value;
    }
  }

  lemma SingleCount(e: EventRecord, ws: int, we: int, clock: int, o: Occurrence)
    requires Contribution(e, ws, we, clock).Ok? && e.rule.None?
    ensures multiset(Contribution(e, ws, we, clock).value)[o] == if Produces(e, o, ws, we, clock) then 1 else 0
  {
    var sp := Normalize(e.start.value, e.end);
    var r := Contribution(e, ws, we, clock).value;
    if sp.start <= we && sp.end.At? && Admits(sp.start, sp.end.minute, ws, we) {
      var single := Shape(e, sp.allDay, sp.start, sp.end.minute);
      assert r == [single];
      assert Produces(e, o, ws, we, clock) <==> o == single;
    } else {
      assert r == [];
      assert !Produces(e, o, ws, we, clock);
    }
  }

  /** A live recurring record with a date-time end contributes the instant
      loop over `between`. */
  lemma LiveContribution(e: EventRecord, ws: int, we: int, clock: int, sp: Span)
    requires e.start.Some? && e.rule.Some? && e.rule.value.until.Some?
    requires UntilLive(e.rule.value.until.value, clock)
    requires sp == Normalize(e.start.value, e.end) && sp.end.At?
    ensures Contribution(e, ws, we, clock) ==
      Ok(Instances(e, sp.allDay, Between(e.rule.value.instances, Excluded(e.exdate), ws, we), sp.end.minute - sp.start, ws, we))
  {
  }

  /** For a live recurring record with a date-time end normalised to `sp`,
      the reference definition unfolded: the event's shape at a generated,
      non-excluded instant strictly inside the window, overlapping it. */
  lemma ProducesRecurring(e: EventRecord, ws: int, we: int, clock: int, o: Occurrence, sp: Span)
    requires e.start.Some? && e.rule.Some? && e.rule.value.until.Some?
    requires UntilLive(e.rule.value.until.value, clock)
    requires sp == Normalize(e.start.value, e.end) && sp.end.At?
    ensures Produces(e, o, ws, we, clock) <==>
      Fits(e, sp.allDay, sp.end.minute - sp.start, ws, we, o) && o.start in e.rule.value.instances && Inside(Excluded(e.exdate), ws, we, o.start)
  {
  }

  /** The counting step of `RecurringCount`, on the values alone. */
  lemma CountChain(yielded: int, kept: int, generated: int, fits: bool, inside: bool)
    requires yielded == if fits then kept else 0
    requires kept == if inside then generated else 0
    ensures yielded == if fits && inside then generated else 0
  {
  }

  /** The instant loop over `between` yields `o` once per generated instant
      it starts at, when it has the event's shape at a non-excluded instant
      strictly inside the window and overlaps it, and never otherwise. */
  lemma RecurringCount(e: EventRecord, sp: Span, ws: int, we: int, kept: seq<int>, o: Occurrence)
    requires e.rule.Some? && sp.end.At?
    requires kept == Between(e.rule.value.instances, Excluded(e.exdate), ws, we)
    ensures multiset(Instances(e, sp.allDay, kept, sp.end.minute - sp.start, ws, we))[o] ==
      if Fits(e, sp.allDay, sp.end.minute - sp.start, ws, we, o) && Inside(Excluded(e.exdate), ws, we, o.start)
      then multiset(e.rule.value.instances)[o.start] else 0
  {
    InstancesCount(e, sp.allDay, kept, sp.end.minute - sp.start, ws, we, o);
    BetweenCount(e.rule.value.instances, Excluded(e.exdate), ws, we, o.start);
    CountChain(
      multiset(Instances(e, sp.allDay, kept, sp.end.minute - sp.start, ws, we))[o],
      multiset(kept)[o.start],
      multiset(e.rule.value.instances)[o.start],
      Fits(e, sp.allDay, sp.end.minute - sp.start, ws, we, o),
      Inside(Excluded(e.exdate), ws, we, o.start));
  }

  /** One record's outcome followed by the outcome of the records after it:
      the first fault wins, otherwise the lists are concatenated. */
  function Join(head: Outcome<seq<Occurrence>>, rest: Outcome<seq<Occurrence>>): (r: Outcome<seq<Occurrence>>)
    ensures r.Err? <==> head.Err? || rest.Err?
    ensures r.Err? ==> r.fault == if head.Err? then head.fault else rest.fault
    ensures r.Ok? ==> r.value == head.value + rest.value
  {
    match head
    case Err(f) => Err(f)
    case Ok(h) =>
      match rest
      case Err(f) => Err(f)
      case Ok(t) => Ok(h + t)
  }

  /** Joining an empty contribution changes nothing. */
  lemma JoinNothing(rest: Outcome<seq<Occurrence>>)
    ensures Join(Ok([]), rest) == rest
  {
    if rest.Ok? {
      assert [] + rest.value == rest.value;
    }
  }

  /** The per-event loop: contributions concatenated in document order; the
      first fault aborts everything. */
  function Gather(defs: seq<EventRecord>, ws: int, we: int, clock: int): Outcome<seq<Occurrence>>
  {
    if |defs| == 0 then Ok([])
    else Join(Contribution(defs[0], ws, we, clock), Gather(defs[1..], ws, we, clock))
  }

  /** The loop raises iff some record faults; otherwise its candidates are
      exactly the occurrences that some record produces. */
  lemma {:induction false} GatherMeaning(defs: seq<EventRecord>, ws: int, we: int, clock: int)
    ensures Gather(defs, ws, we, clock).Err? <==> exists i :: 0 <= i < |defs| && Faults(defs[i], ws, we, clock)
    ensures Gather(defs, ws, we, clock).Ok? ==> forall o :: o in Gather(defs, ws, we, clock).value <==>
      exists i :: 0 <= i < |defs| && Produces(defs[i], o, ws, we, clock)
  {
    if |defs| > 0 {
      GatherMeaning(defs[1..], ws, we, clock);
      assert forall i :: 1 <= i < |defs| ==> defs[i] == defs[1..][i - 1];
      if Gather(defs, ws, we, clock).Ok? {
        forall o
          ensures (exists i :: 0 <= i < |defs| && Produces(defs[i], o, ws, we, clock)) ==>
            Produces(defs[0], o, ws, we, clock) || exists i :: 0 <= i < |defs| - 1 && Produces(defs[1..][i], o, ws, we, clock)
        {
          if exists i :: 0 <= i < |defs| && Produces(defs[i], o, ws, we, clock) {
            var i :| 0 <= i < |defs| && Produces(defs[i], o, ws, we, clock);
            if i > 0 {
              assert Produces(defs[1..][i - 1], o, ws, we, clock);
            }
          }
        }
      }
    }
  }

  /** `get_events_from_ics` on already-parsed records. */
  function Resolve(defs: seq<EventRecord>, ws: int, we: int, clock: int): (r: Outcome<seq<Occurrence>>)
    ensures r.Err? <==> exists i :: 0 <= i < |defs| && Faults(defs[i], ws, we, clock)
    ensures r.Ok? ==> Sorted(r.value)
    ensures r.Ok? ==> forall o :: o in r.value <==>
      exists i :: 0 <= i < |defs| && Produces(defs[i], o, ws, we, clock)
    ensures r.Ok? ==> forall o :: o in r.value ==> ws <= o.end && o.start <= we
    ensures r.Ok? ==>
      (Gather(defs, ws, we, clock).Ok? && multiset(r.value) == multiset(Gather(defs, ws, we, clock).value))
  {
    GatherMeaning(defs, ws, we, clock);
    match Gather(defs, ws, we, clock)
    case Err(f) => Err(f)
    case Ok(candidates) =>
      var sorted := Sort(candidates);
      assert forall o :: o in sorted <==> o in candidates by {
        forall o
          ensures o in sorted <==> o in candidates
        {
          assert o in sorted <==> o in multiset(sorted);
          assert o in candidates <==> o in multiset(candidates);
        }
      }
      Ok(sorted)
  }

  /** Stability of the result: among occurrences with equal start, the
      result keeps document order (and, within one recurring event,
      generation order). */
  lemma ResolveIsStable(defs: seq<EventRecord>, ws: int, we: int, clock: int, t: int)
    requires Resolve(defs, ws, we, clock).Ok?
    ensures StartingAt(Resolve(defs, ws, we, clock).value, t) == StartingAt(Gather(defs, ws, we, clock).value, t)
  {
    SortIsStable(Gather(defs, ws, we, clock).value, t);
  }

  /** A record that contributes nothing can be removed from the loop without
      changing its outcome. */
  lemma {:induction false} SilentRecordIsSkipped(defs: seq<EventRecord>, i: int, ws: int, we: int, clock: int)
    requires 0 <= i < |defs|
    requires Contribution(defs[i], ws, we, clock) == Ok([])
    ensures Gather(defs, ws, we, clock) == Gather(defs[..i] + defs[i + 1..], ws, we, clock)
  {
    var defs' := defs[..i] + defs[i + 1..];
    if i == 0 {
      assert defs' == defs[1..];
      JoinNothing(Gather(defs[1..], ws, we, clock));
    } else {
      SilentRecordIsSkipped(defs[1..], i - 1, ws, we, clock);
      RemoveBehindHead(defs, i);
      assert Gather(defs', ws, we, clock) == Join(Contribution(defs[0], ws, we, clock), Gather(defs'[1..], ws, we, clock));
    }
  }

  /** A record that contributes nothing can be removed without changing the
      result, fault or list. */
  lemma SilentRecordIsInvisible(defs: seq<EventRecord>, i: int, ws: int, we: int, clock: int)
    requires 0 <= i < |defs|
    requires Contribution(defs[i], ws, we, clock) == Ok([])
    ensures Resolve(defs, ws, we, clock) == Resolve(defs[..i] + defs[i + 1..], ws, we, clock)
  {
    SilentRecordIsSkipped(defs, i, ws, we, clock);
  }

  /** A recurring record whose rule has no UNTIL contributes nothing for any
      window. */
  lemma UnboundedRuleContributesNothing(e: EventRecord, ws: int, we: int, clock: int)
    requires e.start.Some? && e.rule.Some? && e.rule.value.until.None?
    ensures Contribution(e, ws, we, clock) == Ok([])
  {
  }

  /** A recurring record whose UNTIL date's midnight is not after the clock
      contributes nothing for any window. */
  lemma ElapsedRuleContributesNothing(e: EventRecord, ws: int, we: int, clock: int)
    requires e.start.Some? && e.rule.Some? && e.rule.value.until.Some?
    requires !UntilLive(e.rule.value.until.value, clock)
    ensures Contribution(e, ws, we, clock) == Ok([])
  {
  }

  /** Every returned occurrence that only recurring records produce sits
      strictly inside the window, and some recurring record has it as one of
      its rule's instants, not excluded, shifted by that record's duration. */
  lemma RecurringOccurrenceShape(defs: seq<EventRecord>, ws: int, we: int, clock: int, o: Occurrence)
    requires Resolve(defs, ws, we, clock).Ok? && o in Resolve(defs, ws, we, clock).value
    requires forall j :: 0 <= j < |defs| && Produces(defs[j], o, ws, we, clock) ==> defs[j].rule.Some?
    ensures ws < o.start < we
    ensures exists i :: 0 <= i < |defs| && RecurringInstance(defs[i], o, ws, we)
  {
    var i :| 0 <= i < |defs| && Produces(defs[i], o, ws, we, clock);
    assert RecurringInstance(defs[i], o, ws, we);
  }

  /** `o` is an instance of the recurring record `e` strictly inside the
      window: a generated instant, not excluded, lasting as long as `e`. */
  predicate RecurringInstance(e: EventRecord, o: Occurrence, ws: int, we: int)
  {
    && e.rule.Some? && e.start.Some?
    && ws < o.start < we
    && o.start in e.rule.value.instances
    && o.start !in Excluded(e.exdate)
    && var sp := Normalize(e.start.value, e.end);
       sp.end.At? && o.end - o.start == sp.end.minute - sp.start
  }

  /** Two clock readings agree on `e` when its UNTIL, if any, gets the same
      liveness verdict from both: no UNTIL midnight lies between them. */
  predicate SameLiveness(e: EventRecord, c1: int, c2: int)
  {
    e.rule.Some? && e.rule.value.until.Some? ==>
      (UntilLive(e.rule.value.until.value, c1) <==> UntilLive(e.rule.value.until.value, c2))
  }

  /** Two clock readings agree on every record of the calendar. */
  predicate ClocksAgree(defs: seq<EventRecord>, c1: int, c2: int)
  {
    forall i :: 0 <= i < |defs| ==> SameLiveness(defs[i], c1, c2)
  }

  /** Opening the window earlier (same close) keeps every fault and every
      occurrence. */
  lemma ProducesWiden(e: EventRecord, o: Occurrence, ws': int, ws: int, we: int, clock: int, clock': int)
    requires ws' <= ws && SameLiveness(e, clock, clock')
    requires Produces(e, o, ws, we, clock)
    ensures Produces(e, o, ws', we, clock')
  {
  }

  lemma FaultsWiden(e: EventRecord, ws': int, ws: int, we: int, clock: int, clock': int)
    requires ws' <= ws && SameLiveness(e, clock, clock')
    requires Faults(e, ws, we, clock)
    ensures Faults(e, ws', we, clock')
  {
    if e.start.Some? && e.rule.Some? {
      var d :| d in e.rule.value.instances && ws < d < we && d !in Excluded(e.exdate);
      assert ws' < d;
    }
  }

  /** A resolution over a window that opens earlier and closes at the same
      time, at a clock reading that agrees on every UNTIL, faults whenever
      the narrower one does, and otherwise contains every occurrence of the
      narrower one. */
  lemma ResolveWiden(defs: seq<EventRecord>, ws': int, ws: int, we: int, clock: int, clock': int)
    requires ws' <= ws && ClocksAgree(defs, clock, clock')
    ensures Resolve(defs, ws, we, clock).Err? ==> Resolve(defs, ws', we, clock').Err?
    ensures Resolve(defs, ws, we, clock).Ok? && Resolve(defs, ws', we, clock').Ok? ==>
      forall o :: o in Resolve(defs, ws, we, clock).value ==> o in Resolve(defs, ws', we, clock').value
  {
    forall i | 0 <= i < |defs| && Faults(defs[i], ws, we, clock)
      ensures Faults(defs[i], ws', we, clock')
    {
      FaultsWiden(defs[i], ws', ws, we, clock, clock');
    }
    forall i, o | 0 <= i < |defs| && Produces(defs[i], o, ws, we, clock)
      ensures Produces(defs[i], o, ws', we, clock')
    {
      ProducesWiden(defs[i], o, ws', ws, we, clock, clock');
    }
  }
}

=== FILE: scenarios.dfy ===
/** Worked cases of the resolver and the detector on concrete calendars. All
    instants are on 2024-01-01 (UTC), day 19723 since 1970-01-01. */
module Scenarios {
  import opened CalendarTypes
  import opened Normalization
  import opened Recurrence
  import opened Resolver
  import opened Identity
  import opened Transitions

  const Day: int := 19723
  const Noon: int := Day * MinutesPerDay + 720
  const Week: int := 7 * MinutesPerDay

  /** Resolving a one-record calendar is resolving that record. */
  lemma OneRecord(e: EventRecord, ws: int, we: int, clock: int)
    ensures Contribution(e, ws, we, clock).Err? ==> Resolve([e], ws, we, clock) == Err(Contribution(e, ws, we, clock).fault)
    ensures Contribution(e, ws, we, clock) == Ok([]) ==> Resolve([e], ws, we, clock) == Ok([])
    ensures forall o :: Contribution(e, ws, we, clock) == Ok([o]) ==> Resolve([e], ws, we, clock) == Ok([o])
  {
    assert [e][1..] == [];
    var c := Contribution(e, ws, we, clock);
    if c.Ok? {
      assert Gather([e], ws, we, clock) == Ok(c.value + []);
      assert c.value + [] == c.value;
      if |c.value| == 1 {
        assert c.value[1..] == [];
      }
    }
  }

  /** A single meeting from 12:00 to 12:30. */
  function Meeting(): EventRecord
  {
    EventRecord(Some("Meeting"), None, None, Some(At(Noon)), Some(At(Noon + 30)), None, NoExDate)
  }

  function MeetingOccurrence(): Occurrence
  {
    Occurrence(Noon, Noon + 30, false, "Meeting", "None", "None")
  }

  /** The meeting's contribution to a window: itself when the window
      overlaps [12:00, 12:30], nothing otherwise. */
  lemma MeetingIn(ws: int, we: int)
    ensures Resolve([Meeting()], ws, we, Noon) ==
      if ws <= Noon + 30 && Noon <= we then Ok([MeetingOccurrence()]) else Ok([])
  {
    assert Normalize(At(Noon), Some(At(Noon + 30))) == Span(Noon, At(Noon + 30), false);
    OneRecord(Meeting(), ws, we, Noon);
  }

  /** Stopping on one-element lists, under any key. */
  lemma StoppingOfOne<K>(o: Occurrence, key: Occurrence -> K)
    ensures Stopping([o], [o], key) == []
    ensures Stopping([o], [], key) == [o]
    ensures Stopping([], [o], key) == []
  {
    assert [o][1..] == [];
    assert KeySet([o], key) == {key(o)};
    assert KeySet([], key) == {};
  }

  /** At 12:15 the meeting is starting and not stopping. */
  lemma MeetingDuring()
    ensures Detect([Meeting()], Noon + 15, Noon, Noon, KeyText) == Transitions([MeetingOccurrence()], [], None)
  {
    MeetingIn(Noon - 15, Noon + 45);
    MeetingIn(Noon - 30, Noon + 45);
    StoppingOfOne(MeetingOccurrence(), KeyText);
  }

  /** At 12:50 the current window [12:20, 13:20] still overlaps the meeting,
      so it is starting, not stopping. */
  lemma MeetingTwentyMinutesAfter()
    ensures Detect([Meeting()], Noon + 50, Noon, Noon, KeyText) == Transitions([MeetingOccurrence()], [], None)
  {
    MeetingIn(Noon + 20, Noon + 80);
    MeetingIn(Noon + 5, Noon + 80);
    StoppingOfOne(MeetingOccurrence(), KeyText);
  }

  /** At 13:00 the current window opens exactly when the meeting ends; the
      bound is inclusive, so the meeting is still starting. */
  lemma MeetingEndsAtWindowOpen()
    ensures Detect([Meeting()], Noon + 60, Noon, Noon, KeyText) == Transitions([MeetingOccurrence()], [], None)
  {
    MeetingIn(Noon + 30, Noon + 90);
    MeetingIn(Noon + 15, Noon + 90);
    StoppingOfOne(MeetingOccurrence(), KeyText);
  }

  /** At 13:01 only the past window still overlaps the meeting: it stops. */
  lemma MeetingStops()
    ensures Detect([Meeting()], Noon + 61, Noon, Noon, KeyText) == Transitions([], [MeetingOccurrence()], None)
  {
    MeetingIn(Noon + 31, Noon + 91);
    MeetingIn(Noon + 16, Noon + 91);
    StoppingOfOne(MeetingOccurrence(), KeyText);
  }

  /** At 13:16 neither window overlaps the meeting. */
  lemma MeetingGone()
    ensures Detect([Meeting()], Noon + 76, Noon, Noon, KeyText) == Transitions([], [], None)
  {
    MeetingIn(Noon + 46, Noon + 106);
    MeetingIn(Noon + 31, Noon + 106);
    assert Stopping([], [], KeyText) == [];
  }

  /** A weekly 30-minute stand-up whose rule ends three weeks after its first
      instance, with the given exclusions. */
  function Standup(exdate: ExDates): EventRecord
  {
    EventRecord(Some("Standup"), None, None, Some(At(Noon)), Some(At(Noon + 30)),
      Some(Rule(Some(At((Day + 21) * MinutesPerDay)), [Noon, Noon + Week, Noon + 2 * Week])), exdate)
  }

  /** `between` over the stand-up's three instants, unfolded. */
  lemma StandupBetween(excluded: set<int>, ws: int, we: int)
    ensures Between([Noon, Noon + Week, Noon + 2 * Week], excluded, ws, we) ==
      (if ws < Noon < we && Noon !in excluded then [Noon] else [])
      + (if ws < Noon + Week < we && Noon + Week !in excluded then [Noon + Week] else [])
      + (if ws < Noon + 2 * Week < we && Noon + 2 * Week !in excluded then [Noon + 2 * Week] else [])
  {
    var ds := [Noon, Noon + Week, Noon + 2 * Week];
    assert ds[1..] == [Noon + Week, Noon + 2 * Week];
    assert ds[1..][1..] == [Noon + 2 * Week];
    assert ds[1..][1..][1..] == [];
    var c := if ws < Noon + 2 * Week < we && Noon + 2 * Week !in excluded then [Noon + 2 * Week] else [];
    var b := if ws < Noon + Week < we && Noon + Week !in excluded then [Noon + Week] else [];
    var a := if ws < Noon < we && Noon !in excluded then [Noon] else [];
    assert Between(ds[1..][1..], excluded, ws, we) == c + [];
    assert Between(ds[1..], excluded, ws, we) == b + c;
    assert Between(ds, excluded, ws, we) == a + (b + c);
    assert a + (b + c) == a + b + c;
  }

  lemma StandupSpan()
    ensures Normalize(At(Noon), Some(At(Noon + 30))) == Span(Noon, At(Noon + 30), false)
    ensures UntilLive(At((Day + 21) * MinutesPerDay), Noon)
    ensures !UntilLive(At((Day + 21) * MinutesPerDay), (Day + 21) * MinutesPerDay)
  {
  }

  /** Without exclusions the third instance is found in a window around it,
      ending thirty minutes after it starts. */
  lemma ThirdStandupFound()
    ensures Resolve([Standup(NoExDate)], Noon + 2 * Week - 30, Noon + 2 * Week + 30, Noon)
      == Ok([Occurrence(Noon + 2 * Week, Noon + 2 * Week + 30, false, "Standup", "None", "None")])
  {
    var ws, we := Noon + 2 * Week - 30, Noon + 2 * Week + 30;
    AbsentExcludesNothing();
    StandupBetween({}, ws, we);
    StandupSpan();
    var o := Occurrence(Noon + 2 * Week, Noon + 2 * Week + 30, false, "Standup", "None", "None");
    assert [Noon + 2 * Week][1..] == [];
    assert Instances(Standup(NoExDate), false, [Noon + 2 * Week], 30, ws, we) == [o];
    LiveContribution(Standup(NoExDate), ws, we, Noon, Span(Noon, At(Noon + 30), false));
    assert Contribution(Standup(NoExDate), ws, we, Noon) == Ok([o]);
    OneRecord(Standup(NoExDate), ws, we, Noon);
  }

  /** Excluding the third instance suppresses it. */
  lemma ThirdStandupExcluded()
    ensures Resolve([Standup(OneExDate(HasInstant(Noon + 2 * Week)))], Noon + 2 * Week - 30, Noon + 2 * Week + 30, Noon)
      == Ok([])
  {
    var ws, we := Noon + 2 * Week - 30, Noon + 2 * Week + 30;
    var x := OneExDate(HasInstant(Noon + 2 * Week));
    assert Noon + 2 * Week in Excluded(x);
    StandupBetween(Excluded(x), ws, we);
    StandupSpan();
    OneRecord(Standup(x), ws, we, Noon);
  }

  /** The same EXDATE line as the source's calendar library hands it over:
      a value without `.dt`, skipped at the `except`, so the third instance
      is still returned. */
  lemma ThirdStandupKeptAsWritten()
    ensures Resolve([Standup(OneExDate(NoInstant))], Noon + 2 * Week - 30, Noon + 2 * Week + 30, Noon)
      == Ok([Occurrence(Noon + 2 * Week, Noon + 2 * Week + 30, false, "Standup", "None", "None")])
  {
    var ws, we := Noon + 2 * Week - 30, Noon + 2 * Week + 30;
    var x := OneExDate(NoInstant);
    ShapelessEntriesExcludeNothing(x);
    StandupBetween({}, ws, we);
    StandupSpan();
    var o := Occurrence(Noon + 2 * Week, Noon + 2 * Week + 30, false, "Standup", "None", "None");
    assert [Noon + 2 * Week][1..] == [];
    assert Instances(Standup(x), false, [Noon + 2 * Week], 30, ws, we) == [o];
    LiveContribution(Standup(x), ws, we, Noon, Span(Noon, At(Noon + 30), false));
    assert Contribution(Standup(x), ws, we, Noon) == Ok([o]);
    OneRecord(Standup(x), ws, we, Noon);
  }

  /** A recurring instance exactly at the window's opening is not generated,
      although a single event at the same instant is admitted. */
  lemma InstanceAtWindowOpenIsSkipped()
    ensures Resolve([Standup(NoExDate)], Noon + 2 * Week, Noon + 2 * Week + 60, Noon) == Ok([])
    ensures Resolve([Meeting().(start := Some(At(Noon + 2 * Week)), end := Some(At(Noon + 2 * Week + 30)))],
      Noon + 2 * Week, Noon + 2 * Week + 60, Noon)
      == Ok([Occurrence(Noon + 2 * Week, Noon + 2 * Week + 30, false, "Meeting", "None", "None")])
  {
    var ws, we := Noon + 2 * Week, Noon + 2 * Week + 60;
    AbsentExcludesNothing();
    StandupBetween({}, ws, we);
    StandupSpan();
    OneRecord(Standup(NoExDate), ws, we, Noon);
    var single := Meeting().(start := Some(At(Noon + 2 * Week)), end := Some(At(Noon + 2 * Week + 30)));
    assert Normalize(At(Noon + 2 * Week), Some(At(Noon + 2 * Week + 30))) == Span(Noon + 2 * Week, At(Noon + 2 * Week + 30), false);
    OneRecord(single, ws, we, Noon);
  }

  /** Once the clock reaches the midnight that starts the UNTIL date, the rule
      contributes nothing even in a window that holds an instance. */
  lemma ElapsedStandupIsSkipped()
    ensures Resolve([Standup(NoExDate)], Noon + 2 * Week - 30, Noon + 2 * Week + 30, (Day + 21) * MinutesPerDay) == Ok([])
  {
    StandupSpan();
    OneRecord(Standup(NoExDate), Noon + 2 * Week - 30, Noon + 2 * Week + 30, (Day + 21) * MinutesPerDay);
  }

  /** An all-day event without DTEND starts and ends at the midnight of its
      date. */
  lemma AllDayWithoutEnd()
    ensures var e := EventRecord(Some("Holiday"), None, None, Some(OnDate(Day)), None, None, NoExDate);
      Resolve([e], Noon - 30, Noon + 30, Noon) == Ok([])
      && Resolve([e], Day * MinutesPerDay - 30, Day * MinutesPerDay + 30, Noon)
         == Ok([Occurrence(Day * MinutesPerDay, Day * MinutesPerDay, true, "Holiday", "None", "None")])
  {
    var e := EventRecord(Some("Holiday"), None, None, Some(OnDate(Day)), None, None, NoExDate);
    assert Normalize(OnDate(Day), None) == Span(Day * MinutesPerDay, At(Day * MinutesPerDay), true);
    OneRecord(e, Noon - 30, Noon + 30, Noon);
    OneRecord(e, Day * MinutesPerDay - 30, Day * MinutesPerDay + 30, Noon);
  }

  /** A timed start with a bare-date end raises once the event reaches the
      window comparison, and not before. */
  lemma DateEndOnTimedStartRaises()
    ensures var e := Meeting().(end := Some(OnDate(Day)));
      Resolve([e], Noon - 30, Noon + 30, Noon) == Err(DateEndOnTimedStart)
      && Resolve([e], Noon - 90, Noon - 30, Noon) == Ok([])
  {
    var e := Meeting().(end := Some(OnDate(Day)));
    assert Normalize(At(Noon), Some(OnDate(Day))) == Span(Noon, OnDate(Day), false);
    OneRecord(e, Noon - 30, Noon + 30, Noon);
    OneRecord(e, Noon - 90, Noon - 30, Noon);
  }

  /** The midnight that starts 2024-01-02. */
  const Midnight2: int := (Day + 1) * MinutesPerDay

  /** A daily 20-minute job at 23:50 whose rule ends at noon on 2024-01-02,
      so its only instance is the one at 23:50 on 2024-01-01. */
  function Nightly(): EventRecord
  {
    EventRecord(Some("Nightly"), None, None, Some(At(Midnight2 - 10)), Some(At(Midnight2 + 10)),
      Some(Rule(Some(At(Midnight2 + 720)), [Midnight2 - 10])), NoExDate)
  }

  function NightlyOccurrence(): Occurrence
  {
    Occurrence(Midnight2 - 10, Midnight2 + 10, false, "Nightly", "None", "None")
  }

  /** The job's instant loop in a window holding 23:50. */
  lemma NightlyExpansion(ws: int, we: int)
    requires ws < Midnight2 - 10 < we
    ensures Normalize(At(Midnight2 - 10), Some(At(Midnight2 + 10))) == Span(Midnight2 - 10, At(Midnight2 + 10), false)
    ensures Instances(Nightly(), false, Between([Midnight2 - 10], Excluded(NoExDate), ws, we), 20, ws, we) == [NightlyOccurrence()]
  {
    AbsentExcludesNothing();
    var ds := [Midnight2 - 10];
    assert ds[1..] == [];
    assert Between(ds, {}, ws, we) == ds;
    assert Instances(Nightly(), false, ds, 20, ws, we) == [NightlyOccurrence()];
  }

  /** The job in a window around midnight: found while the clock is before
      the UNTIL date's midnight, gone once it has reached it. */
  lemma NightlyIn(ws: int, we: int, clock: int)
    requires ws < Midnight2 - 10 < we
    ensures clock < Midnight2 ==> Resolve([Nightly()], ws, we, clock) == Ok([NightlyOccurrence()])
    ensures clock >= Midnight2 ==> Resolve([Nightly()], ws, we, clock) == Ok([])
  {
    assert UntilDay(At(Midnight2 + 720)) == Day + 1;
    NightlyExpansion(ws, we);
    if clock < Midnight2 {
      LiveContribution(Nightly(), ws, we, clock, Span(Midnight2 - 10, At(Midnight2 + 10), false));
    } else {
      ElapsedRuleContributesNothing(Nightly(), ws, we, clock);
    }
    OneRecord(Nightly(), ws, we, clock);
  }

  /** The two resolutions of one run read the clock separately. When the
      midnight that ends the job's rule passes between the two readings, the
      current window still has the job and the past window no longer does:
      the job is starting, nothing stops, and the past window's keys are not
      the starting keys plus the stopping keys. With one shared reading the
      past window has the job as well. */
  lemma MidnightBetweenReadings()
    ensures Resolve([Nightly()], Midnight2 - 31, Midnight2 + 29, Midnight2 - 1) == Ok([NightlyOccurrence()])
    ensures Resolve([Nightly()], Midnight2 - 46, Midnight2 + 29, Midnight2) == Ok([])
    ensures Resolve([Nightly()], Midnight2 - 46, Midnight2 + 29, Midnight2 - 1) == Ok([NightlyOccurrence()])
    ensures Detect([Nightly()], Midnight2 - 1, Midnight2 - 1, Midnight2, KeyText) == Transitions([NightlyOccurrence()], [], None)
  {
    NightlyIn(Midnight2 - 31, Midnight2 + 29, Midnight2 - 1);
    NightlyIn(Midnight2 - 46, Midnight2 + 29, Midnight2);
    NightlyIn(Midnight2 - 46, Midnight2 + 29, Midnight2 - 1);
    StoppingOfOne(NightlyOccurrence(), KeyText);
  }
}

=== FILE: sequences.dfy ===
/** Order-preserving selection from a sequence. */
module Sequences {

  /** `a` can be obtained from `b` by deleting elements, keeping the order of
      the rest. */
  predicate IsSubsequence<T(==)>(a: seq<T>, b: seq<T>)
    decreases |b|
  {
    || |a| == 0
    || (&& |b| > 0
        && ((a[0] == b[0] && IsSubsequence(a[1..], b[1..])) || IsSubsequence(a, b[1..])))
  }

  /** Removing an element behind the head keeps the head, and the tail loses
      that element. */
  lemma RemoveBehindHead<T>(s: seq<T>, i: int)
    requires 0 < i < |s|
    ensures (s[..i] + s[i + 1..])[0] == s[0]
    ensures (s[..i] + s[i + 1..])[1..] == s[1..][..i - 1] + s[1..][i..]
  {
  }
}

=== FILE: stable_sort.dfy ===
/** The final `events.sort(key=lambda e: e['startdt'])`: a stable sort of
    occurrences by start. Python's sort is stable, so the result is the unique
    ordering that is ascending by start and keeps insertion order among equal
    starts; insertion sort is written here as that reference. */
module StableSort {
  import opened CalendarTypes

  /** Ascending by start. */
  predicate Sorted(s: seq<Occurrence>)
  {
    forall i, j :: 0 <= i < j < |s| ==> s[i].start <= s[j].start
  }

  /** The occurrences of `s` that start at `t`, in their order in `s`. Two
      sequences with equal `StartingAt` for every `t` hold the same elements,
      and agree on the relative order of every pair with equal starts. */
  function StartingAt(s: seq<Occurrence>, t: int): (r: seq<Occurrence>)
    ensures forall o :: o in r <==> o in s && o.start == t
    ensures |r| <= |s|
  {
    if |s| == 0 then []
    else
      var rest := StartingAt(s[1..], t);
      assert forall o :: o in s <==> o == s[0] || o in s[1..];
      if s[0].start == t then [s[0]] + rest else rest
  }

  /** Putting an element in front of a sorted sequence that starts no
      earlier keeps it sorted. */
  lemma ConsSorted(h: Occurrence, s: seq<Occurrence>)
    requires Sorted(s)
    requires forall o :: o in s ==> h.start <= o.start
    ensures Sorted([h] + s)
  {
    var r := [h] + s;
    forall i, j | 0 <= i < j < |r|
      ensures r[i].start <= r[j].start
    {
      assert r[j] == s[j - 1];
      if i > 0 {
        assert r[i] == s[i - 1];
      }
    }
  }

  /** Inserts `x` into sorted `s` in front of the first element that starts
      no earlier than `x`. */
  function Insert(x: Occurrence, s: seq<Occurrence>): (r: seq<Occurrence>)
    requires Sorted(s)
    ensures Sorted(r)
    ensures multiset(r) == multiset(s) + multiset{x}
    ensures forall o :: o in r ==> o == x || o in s
  {
    if |s| == 0 then
      ConsSorted(x, s);
      [x] + s
    else if x.start <= s[0].start then
      HeadIsLeast(s);
      ConsSorted(x, s);
      [x] + s
    else
      SortedTail(s);
      var rest := Insert(x, s[1..]);
      assert s == [s[0]] + s[1..];
      HeadIsLeast(s);
      ConsSorted(s[0], rest);
      [s[0]] + rest
  }

  /** The head of a sorted sequence starts no later than any element. */
  lemma HeadIsLeast(s: seq<Occurrence>)
    requires Sorted(s) && |s| > 0
    ensures forall o :: o in s ==> s[0].start <= o.start
  {
  }

  /** Stable sort by start. */
  function Sort(s: seq<Occurrence>): (r: seq<Occurrence>)
    ensures Sorted(r)
    ensures multiset(r) == multiset(s)
    ensures |r| == |s|
  {
    if |s| == 0 then []
    else
      assert s == [s[0]] + s[1..];
      Insert(s[0], Sort(s[1..]))
  }

  /** Inserting `x` puts it in front of every element with its start. */
  lemma {:induction false} InsertKeepsTies(x: Occurrence, s: seq<Occurrence>, t: int)
    requires Sorted(s)
    ensures StartingAt(Insert(x, s), t) == (if x.start == t then [x] else []) + StartingAt(s, t)
    decreases |s|
  {
    var r := Insert(x, s);
    if |s| == 0 || x.start <= s[0].start {
      assert r == [x] + s;
      assert r[0] == x && r[1..] == s;
    } else {
      InsertKeepsTies(x, s[1..], t);
      assert r[0] == s[0] && r[1..] == Insert(x, s[1..]);
    }
  }

  /** Stability: among occurrences with equal start, the sort keeps the
      input order; together with `Sorted` and the multiset equation this
      pins the result down. */
  lemma {:induction false} SortIsStable(s: seq<Occurrence>, t: int)
    ensures StartingAt(Sort(s), t) == StartingAt(s, t)
    decreases |s|
  {
    if |s| > 0 {
      SortIsStable(s[1..], t);
      InsertKeepsTies(s[0], Sort(s[1..]), t);
    }
  }

  /** `StartingAt` peels off the head of a sequence. */
  lemma StartingAtHead(s: seq<Occurrence>, t: int)
    requires |s| > 0
    ensures StartingAt(s, t) == (if s[0].start == t then [s[0]] else []) + StartingAt(s[1..], t)
  {
  }

  /** An empty sequence has no occurrence at the start of a non-empty one. */
  lemma NothingTiesWithEmpty(a: seq<Occurrence>, b: seq<Occurrence>)
    requires |a| == 0 && |b| > 0
    ensures StartingAt(a, b[0].start) != StartingAt(b, b[0].start)
  {
    assert b[0] in StartingAt(b, b[0].start);
  }

  /** Two non-empty sorted sequences with the same per-start order begin
      with the same element. */
  lemma SameHead(a: seq<Occurrence>, b: seq<Occurrence>)
    requires Sorted(a) && Sorted(b) && |a| > 0 && |b| > 0
    requires forall t :: StartingAt(a, t) == StartingAt(b, t)
    ensures a[0] == b[0]
  {
    var m := a[0].start;
    assert b[0] in StartingAt(b, b[0].start);
    assert b[0] in StartingAt(a, b[0].start);
    HeadIsLeast(a);
    assert a[0] in StartingAt(a, m);
    assert a[0] in StartingAt(b, m);
    HeadIsLeast(b);
    StartingAtHead(a, m);
    StartingAtHead(b, m);
    assert StartingAt(a, m)[0] == a[0];
    assert StartingAt(b, m)[0] == b[0];
  }

  /** Dropping an equal head keeps the per-start order equal. */
  lemma SameTailTies(a: seq<Occurrence>, b: seq<Occurrence>, t: int)
    requires |a| > 0 && |b| > 0 && a[0] == b[0]
    requires StartingAt(a, t) == StartingAt(b, t)
    ensures StartingAt(a[1..], t) == StartingAt(b[1..], t)
  {
    StartingAtHead(a, t);
    StartingAtHead(b, t);
    if a[0].start == t {
      assert StartingAt(a[1..], t) == StartingAt(a, t)[1..];
      assert StartingAt(b[1..], t) == StartingAt(b, t)[1..];
    }
  }

  /** Dropping an equal head keeps the per-start order equal for every
      start. */
  lemma TailTies(a: seq<Occurrence>, b: seq<Occurrence>)
    requires |a| > 0 && |b| > 0 && a[0] == b[0]
    requires forall t :: StartingAt(a, t) == StartingAt(b, t)
    ensures forall t :: StartingAt(a[1..], t) == StartingAt(b[1..], t)
  {
    forall t
      ensures StartingAt(a[1..], t) == StartingAt(b[1..], t)
    {
      SameTailTies(a, b, t);
    }
  }

  /** Sequences agreeing on head and tail are equal. */
  lemma SameHeadSameTail(a: seq<Occurrence>, b: seq<Occurrence>)
    requires |a| > 0 && |b| > 0 && a[0] == b[0] && a[1..] == b[1..]
    ensures a == b
  {
    assert a == [a[0]] + a[1..];
    assert b == [b[0]] + b[1..];
  }

  /** Dropping the head keeps a sequence sorted. */
  lemma SortedTail(a: seq<Occurrence>)
    requires Sorted(a) && |a| > 0
    ensures Sorted(a[1..])
  {
  }

  /** Sortedness and per-start order determine a sequence: two sorted
      sequences that agree on `StartingAt` for every start are equal. */
  lemma {:induction false} SortedTiesDetermine(a: seq<Occurrence>, b: seq<Occurrence>)
    requires Sorted(a) && Sorted(b)
    requires forall t :: StartingAt(a, t) == StartingAt(b, t)
    ensures a == b
    decreases |a| + |b|
  {
    if |a| == 0 && |b| == 0 {
    } else if |a| == 0 {
      NothingTiesWithEmpty(a, b);
      assert false;
    } else if |b| == 0 {
      NothingTiesWithEmpty(b, a);
      assert false;
    } else {
      SameHead(a, b);
      TailTies(a, b);
      SortedTail(a);
      SortedTail(b);
      SortedTiesDetermine(a[1..], b[1..]);
      SameHeadSameTail(a, b);
    }
  }

  /** `Sort` is the stable sort: any ordering of `s` that is ascending by
      start and keeps the input order among equal starts is `Sort(s)`. */
  lemma StableSortIsUnique(s: seq<Occurrence>, r: seq<Occurrence>)
    requires Sorted(r)
    requires forall t :: StartingAt(r, t) == StartingAt(s, t)
    ensures r == Sort(s)
  {
    forall t
      ensures StartingAt(r, t) == StartingAt(Sort(s), t)
    {
      SortIsStable(s, t);
    }
    SortedTiesDetermine(r, Sort(s));
  }
}

=== FILE: transitions.dfy ===
/** The transition detector inside `lambda_handler`: the resolver runs on a
    current window and on a past window that opens earlier, and the
    occurrences of the past window whose keys the current window lacks are
    the ones that stopped. */
module Transitions {
  import opened CalendarTypes
  import opened Sequences
  import opened Resolver
  import opened Identity

  /** Minutes before `now` at which the current window opens. */
  const CurrentLead: int := 30
  /** Minutes before `now` at which the past window opens. */
  const PastLead: int := 45
  /** Minutes after `now` at which both windows close. */
  const Lag: int := 30

  /** A query window: its opening and closing instants. */
  datatype Bounds = Bounds(open: int, close: int)

  function CurrentWindow(now: int): Bounds
  {
    Bounds(now - CurrentLead, now + Lag)
  }

  function PastWindow(now: int): Bounds
  {
    Bounds(now - PastLead, now + Lag)
  }

  /** The past window holds the current one: it opens fifteen minutes
      earlier and closes at the same time. */
  lemma PastWindowContainsCurrent(now: int)
    ensures CurrentWindow(now) == Bounds(now - 30, now + 30)
    ensures PastWindow(now) == Bounds(now - 45, now + 30)
    ensures PastWindow(now).open <= CurrentWindow(now).open
    ensures PastWindow(now).close == CurrentWindow(now).close
    ensures CurrentWindow(now).open < now < CurrentWindow(now).close
  {
  }

  /** `set(map(key, s))`. The handler's key is `get_key`, the rendered text
      `Identity.KeyText`; `Identity.KeyOf` is the tuple it stands for. */
  function KeySet<K(==)>(s: seq<Occurrence>, key: Occurrence -> K): (ks: set<K>)
    ensures forall o :: o in s ==> key(o) in ks
    ensures forall k :: k in ks ==> exists o :: o in s && key(o) == k
  {
    set o | o in s :: key(o)
  }

  /** `[x for x in s if key(x) in keys]`. */
  function Select<K(==)>(s: seq<Occurrence>, keys: set<K>, key: Occurrence -> K): (r: seq<Occurrence>)
    ensures IsSubsequence(r, s)
    ensures forall o :: o in r <==> o in s && key(o) in keys
    ensures forall o :: multiset(r)[o] == if key(o) in keys then multiset(s)[o] else 0
  {
    if |s| == 0 then []
    else
      var rest := Select(s[1..], keys, key);
      assert s == [s[0]] + s[1..];
      assert forall o :: o in s <==> o == s[0] || o in s[1..];
      if key(s[0]) in keys then [s[0]] + rest else rest
  }

  /** The stopping occurrences: the past occurrences whose keys are in
      `set(keys of past) - set(keys of current)`. Past order and
      multiplicity are kept; nothing of another key gets in. */
  function Stopping<K(==)>(past: seq<Occurrence>, current: seq<Occurrence>, key: Occurrence -> K): (r: seq<Occurrence>)
    ensures IsSubsequence(r, past)
    ensures forall o :: o in r <==> o in past && key(o) !in KeySet(current, key)
    ensures forall o :: multiset(r)[o] == if key(o) in KeySet(current, key) then 0 else multiset(past)[o]
  {
    var ended := KeySet(past, key) - KeySet(current, key);
    var r := Select(past, ended, key);
    assert forall o :: o in past ==> (key(o) in ended <==> key(o) !in KeySet(current, key));
    assert forall o :: o !in past ==> multiset(past)[o] == 0;
    r
  }

  /** Past occurrences that share a key are kept or dropped together; with
      the text key of the handler, so are occurrences whose texts collide. */
  lemma StoppingKeepsKeyGroups<K>(past: seq<Occurrence>, current: seq<Occurrence>, key: Occurrence -> K, i: int, j: int)
    requires 0 <= i < |past| && 0 <= j < |past|
    requires key(past[i]) == key(past[j])
    ensures past[i] in Stopping(past, current, key) <==> past[j] in Stopping(past, current, key)
  {
  }

  /** What the handler hands to the notification loops: the starting list,
      the stopping list, and the fault that cut the run short, if any. When
      the past-window resolution faults, the starting list has already been
      handed over and no stopping list is produced. */
  datatype Transitions = Transitions(starting: seq<Occurrence>, stopping: seq<Occurrence>, fault: Option<Fault>)

  /** The handler's two resolutions and the ended-event difference under the
      key `key` (the handler itself uses `Identity.KeyText`). `now` is the
      handler's clock; `clockCur` and `clockPast` are the readings the two
      resolutions compare UNTIL dates with, taken separately, the second
      after the start notifications went out. */
  function Detect<K(==)>(defs: seq<EventRecord>, now: int, clockCur: int, clockPast: int, key: Occurrence -> K): (t: Transitions)
    ensures t.fault.None? ==> KeySet(t.starting, key) !! KeySet(t.stopping, key)
    ensures t.fault.Some? ==> t.stopping == []
    ensures t.fault.None? <==>
      forall i :: 0 <= i < |defs| ==>
        !Faults(defs[i], CurrentWindow(now).open, now + Lag, clockCur) &&
        !Faults(defs[i], PastWindow(now).open, now + Lag, clockPast)
  {
    var cur := CurrentWindow(now);
    match Resolve(defs, cur.open, cur.close, clockCur)
    case Err(f) => Transitions([], [], Some(f))
    case Ok(events) =>
      var past := PastWindow(now);
      match Resolve(defs, past.open, past.close, clockPast)
      case Err(f) => Transitions(events, [], Some(f))
      case Ok(pastEvents) =>
        var stopping := Stopping(pastEvents, events, key);
        assert KeySet(events, key) !! KeySet(stopping, key) by {
          forall k | k in KeySet(stopping, key)
            ensures k !in KeySet(events, key)
          {
            var o :| o in stopping && key(o) == k;
          }
        }
        Transitions(events, stopping, None)
  }

  /** When nothing faults and no UNTIL midnight falls between the two clock
      readings, the keys of the past window split exactly into the starting
      keys and the stopping keys: every occurrence of the current window is
      also one of the past window, so no key is lost and none is reported
      twice. */
  lemma DetectSplitsPastKeys<K>(defs: seq<EventRecord>, now: int, clockCur: int, clockPast: int, key: Occurrence -> K)
    requires Detect(defs, now, clockCur, clockPast, key).fault.None?
    requires ClocksAgree(defs, clockCur, clockPast)
    ensures var past := Resolve(defs, PastWindow(now).open, PastWindow(now).close, clockPast);
      var t := Detect(defs, now, clockCur, clockPast, key);
      && past.Ok?
      && KeySet(t.starting, key) + KeySet(t.stopping, key) == KeySet(past.value, key)
      && KeySet(t.starting, key) !! KeySet(t.stopping, key)
  {
    var cur := CurrentWindow(now);
    var pw := PastWindow(now);
    ResolveWiden(defs, pw.open, cur.open, cur.close, clockCur, clockPast);
    var events := Resolve(defs, cur.open, cur.close, clockCur).value;
    var pastEvents := Resolve(defs, pw.open, pw.close, clockPast).value;
    var t := Detect(defs, now, clockCur, clockPast, key);
    assert t.starting == events && t.stopping == Stopping(pastEvents, events, key);
    forall k | k in KeySet(pastEvents, key)
      ensures k in KeySet(events, key) + KeySet(t.stopping, key)
    {
      var o :| o in pastEvents && key(o) == k;
    }
    forall k | k in KeySet(events, key) + KeySet(t.stopping, key)
      ensures k in KeySet(pastEvents, key)
    {
      if k in KeySet(events, key) {
        var o :| o in events && key(o) == k;
      } else {
        var o :| o in t.stopping && key(o) == k;
      }
    }
  }

  /** The detector's guarantee: every occurrence of a record in the current
      window is starting; every occurrence of a record in the past window
      whose key no starting occurrence has is stopping; and every stopping
      occurrence is such an occurrence. */
  lemma DetectGuarantee<K>(defs: seq<EventRecord>, now: int, clockCur: int, clockPast: int, key: Occurrence -> K, o: Occurrence)
    requires Detect(defs, now, clockCur, clockPast, key).fault.None?
    ensures (exists i :: 0 <= i < |defs| && Produces(defs[i], o, now - CurrentLead, now + Lag, clockCur)) <==>
      o in Detect(defs, now, clockCur, clockPast, key).starting
    ensures o in Detect(defs, now, clockCur, clockPast, key).stopping <==>
      && (exists i :: 0 <= i < |defs| && Produces(defs[i], o, now - PastLead, now + Lag, clockPast))
      && key(o) !in KeySet(Detect(defs, now, clockCur, clockPast, key).starting, key)
  {
  }

  /** Whatever the handler's text key stops, the tuple key stops as well:
      equal tuples render to equal texts, so the text key can only merge
      occurrences the tuple key keeps apart. */
  lemma TextStopsWithinIdentity(past: seq<Occurrence>, current: seq<Occurrence>, o: Occurrence)
    ensures o in Stopping(past, current, KeyText) ==> o in Stopping(past, current, KeyOf)
  {
  }

  /** The handler's text key misses a stop: a past occurrence whose text
      collides with a different current occurrence is not reported, while the
      tuple key reports it. */
  lemma TextKeyHidesStop()
    ensures var a := Occurrence(0, 30, false, "Standup - Team", "Room", "None");
            var b := Occurrence(0, 30, false, "Standup", "Team - Room", "None");
            Stopping([a], [b], KeyText) == [] && Stopping([a], [b], KeyOf) == [a]
  {
    var a := Occurrence(0, 30, false, "Standup - Team", "Room", "None");
    var b := Occurrence(0, 30, false, "Standup", "Team - Room", "None");
    KeyTextCollides();
    assert [a][1..] == [];
    assert KeySet([b], KeyText) == {KeyText(b)};
    assert KeySet([b], KeyOf) == {KeyOf(b)};
  }

  /** The corrected detector: with the tuple key, an occurrence stops exactly
      when a record produces it in the past window and no starting occurrence
      agrees with it on start, end, summary and description. */
  lemma IdentityStopping(defs: seq<EventRecord>, now: int, clockCur: int, clockPast: int, o: Occurrence)
    requires Detect(defs, now, clockCur, clockPast, KeyOf).fault.None?
    ensures o in Detect(defs, now, clockCur, clockPast, KeyOf).stopping <==>
      && (exists i :: 0 <= i < |defs| && Produces(defs[i], o, now - PastLead, now + Lag, clockPast))
      && forall s :: s in Detect(defs, now, clockCur, clockPast, KeyOf).starting ==>
           !(s.start == o.start && s.end == o.end && s.summary == o.summary && s.description == o.description)
  {
    var t := Detect(defs, now, clockCur, clockPast, KeyOf);
    DetectGuarantee(defs, now, clockCur, clockPast, KeyOf, o);
    if KeyOf(o) in KeySet(t.starting, KeyOf) {
      var s :| s in t.starting && KeyOf(s) == KeyOf(o);
      KeyIsIdentity(s, o);
    }
  }
}

=== FILE: window.dfy ===
/** The window-intersection filter `append_event` applies to every candidate. */
module Window {

  /** `append_event`'s test: drop a candidate that starts after the window
      closes or ends before it opens; keep everything else. The result is
      exactly "the closed interval [start, end] meets [ws, we]". */
  function Admits(start: int, end: int, ws: int, we: int): (ok: bool)
    ensures ok <==> ws <= end && start <= we
  {
    if start > we then false
    else if end < ws then false
    else true
  }

  /** Both window bounds are inclusive: a candidate starting exactly at the
      window's end, or ending exactly at its start, is admitted. */
  lemma BoundsAreInclusive(start: int, end: int, ws: int, we: int)
    requires start <= end
    requires start == we || end == ws
    requires ws <= we
    ensures Admits(start, end, ws, we)
  {
  }

  /** Opening a window earlier (same close) never loses a candidate. */
  lemma EarlierOpeningKeeps(start: int, end: int, ws': int, ws: int, we: int)
    requires ws' <= ws
    requires Admits(start, end, ws, we)
    ensures Admits(start, end, ws', we)
  {
  }
}
